=== FILE: README.md ===
# Shared clipboard: a verified model of the clipboard router

This project models the server core of a small shared-clipboard service in Dafny:

- the `clipboard_items` and `clipboard_history` tables;
- the request bodies the router accepts, with their defaults;
- the websocket connection registry and its best-effort broadcast;
- the HTTP handlers create, update, delete, get, list, history, delta-sync and stats.

The model is functional. The whole server state is an immutable `Store` holding:

- the item rows, in insertion order;
- the history rows;
- the registry of push channels;
- a log of every broadcast, with the channels that received it.

Every mutating handler (create, update, delete, opening and closing a websocket) is a pure transition from a `Store` to an `Outcome`: the new store plus the response, which is a value or an error (404, integrity error, `ValueError`, and so on). Request bodies are validated before any handler runs; a body that fails validation (422) never reaches a transition. The read-only handlers (get, list, history, sync and stats) are pure functions of the store that return the response alone.

Inputs of each handler:

- **Clock.** One reading per request arrives as an integer `now`, in microseconds.
- **New row id.** The id a new row would get (a UUID in the service) arrives as `freshId`.
- **Failed sends.** The channels whose send fails during a broadcast arrive as the set `failed`.

Modules:

- `Basics`: `Option`, `Result`, the error kinds, and time.
- `Query`: the generic SQL pieces:
  - filtering by a predicate;
  - descending sort;
  - `LIMIT`, where SQLite reads a negative limit as no limit;
  - top-N.
- `Models`: the rows, and `to_dict` with its inverse.
- `Schemas`: request validation and defaults.
- `Connections`: the `ConnectionManager`.
- `Table`: lookup by id, update by primary key, delete, and lookup by content.
- `Clipboard`: the handlers.
- `Stats`: the stats endpoint.
- `Lifecycle`: properties that span several requests.

## Model

| member | source | states |
|---|---|---|
| Models.ToDict | app/models.py:20-29 | The dictionary has the seven keys in the declared order. Device and address are `null` exactly when unset. Reading the dictionary back (`FromDict`) recovers the row. |
| Schemas.ParseCreate | app/schemas.py:5-8 | A create body is accepted iff `content` is given and `content_type` is not `null`. The given content and type are kept, and `content_type` defaults to "text". `device_name` is `None` iff not given, and a given name is kept. |
| Schemas.ParseUpdate | app/schemas.py:10-12 | An update body is accepted iff `content` is given. `content_type` is `None` only when sent as `null`; when left out it becomes "text"; a given type is kept. |
| Schemas.ParseSync | app/schemas.py:26-27 | The cursor is present iff given, and then it carries the given value. |
| Connections.Connect | app/routers/clipboard.py:25-27 | Registration succeeds iff the handshake is accepted. The channel is appended, and the earlier entries keep their places. |
| Connections.Disconnect | app/routers/clipboard.py:29-30 | Removal succeeds iff the channel is registered, and otherwise raises `ValueError`. The first occurrence is removed: the length drops by one, the multiset loses exactly `ws`, and the other channels keep their order. |
| Connections.DisconnectUndoesConnect | app/routers/clipboard.py:25-30 | Disconnecting a freshly connected channel restores the previous registry exactly. |
| Connections.BroadcastLoop | app/routers/clipboard.py:32-37 | The loop delivers to exactly the registered channels whose send does not fail, in registry order. A failing send does not stop the others. |
| Connections.Broadcast | app/routers/clipboard.py:32-37 | A channel receives the message iff it is registered and its send does not fail. The object sent carries the kind's `type` tag and the message's data. |
| Connections.ToWire | app/routers/clipboard.py:94-97 | A message goes out as `{"type", "data"}` with the data unchanged and the tag one of "new", "update", "delete". |
| Connections.ToWireInjective | app/routers/clipboard.py:94-97 | Distinct messages have distinct wire forms: the three `type` tags are distinct, so a client can tell the kinds apart. |
| Clipboard.GetItem | app/routers/clipboard.py:62-70 | A lookup succeeds iff some row has the id, and then returns a row with that id. Otherwise it answers 404. |
| Clipboard.ListItems | app/routers/clipboard.py:44-54 | The result has `limit` rows (10 when the parameter is left out), or every row when the limit is negative or too large. It is newest first and drawn from the table. No row left out was updated later than a row returned. |
| Clipboard.CreateItem | app/routers/clipboard.py:80-118 | The corrected handler (see Findings). **When content is already stored:** the most recently updated match is refreshed (only `updated_at` moves to `now`). No row is added, no other id changes, and "update" is broadcast. **Otherwise:** one row is inserted from the request, with no address and created = updated = now, and "new" is broadcast. **If the new id collides:** an integrity error, with nothing written. |
| Clipboard.CreateItemAsWritten | app/routers/clipboard.py:80-118 | The handler as written fails with `MultipleResultsFound`, changing nothing, exactly when more than one row holds the content. With at most one match its outcome is exactly `CreateItem`'s: the refresh with an "update" broadcast, or the insert with a "new" broadcast, or the integrity error. |
| Clipboard.NextHistoryId | app/models.py:35 | The next autoincrement id is positive and larger than every existing history id. |
| Clipboard.UpdateItem | app/routers/clipboard.py:127-157 | An unknown id gives 404, with nothing written or sent. Otherwise the row takes the new content, and takes the new type only when it is truthy. It keeps its id, device, address and creation time, and gets `updated_at = now`. No other id changes. Exactly one history entry is appended, with a fresh id, recording the new content. "update" is broadcast. |
| Clipboard.DeleteItem | app/routers/clipboard.py:165-179 | A delete that removes no row is a 404 with no broadcast. Otherwise the id is gone, no other id changes, "delete" is broadcast with the id, and history stays. Under the primary key exactly one row goes. |
| Clipboard.ItemEntries | app/routers/clipboard.py:189-190 | An entry is selected iff it is in the history and belongs to the item. |
| Clipboard.HistoryEntries | app/routers/clipboard.py:188-194 | The item's entries, newest first: `limit` of them, or all when the limit is negative or too large. No entry left out is newer than one returned. |
| Clipboard.History | app/routers/clipboard.py:181-203 | The entries `HistoryEntries` selects with the given limit, or 20 when the parameter is left out, each shown as its id, content and timestamp, in non-increasing timestamp order. At most 20 (or the given non-negative limit) are shown. |
| Clipboard.Changed | app/routers/clipboard.py:212-219 | A row is returned iff it was updated strictly after the cursor (every row when there is no cursor), with its multiplicity kept. The rows are newest first. |
| Clipboard.Sync | app/routers/clipboard.py:211-224 | The response's cursor is `now`. Each returned dictionary reads back as the corresponding changed row. |
| Clipboard.OpenChannel | app/routers/clipboard.py:226-229 | The websocket opens iff the handshake is accepted. The channel joins the registry, and the tables and log are untouched. A failed handshake is a handshake error, with nothing registered. |
| Clipboard.CloseChannel | app/routers/clipboard.py:234-235 | The channel leaves the registry iff it was registered, and otherwise `ValueError` is raised. The registry left is exactly `Disconnect`'s, so the other channels keep their order. The tables are untouched. |
| Stats.TopDevices | app/routers/clipboard.py:255-262 | At most five groups, each with its true row count (at least one). No device appears twice. The groups are ordered by descending count, and no device left out has more rows than one reported. |
| Stats.GetStats | app/routers/clipboard.py:242-272 | The total is the row count. The trailing-day count is the number of rows created within a day of `now`, and is at most the total. The active connection count is the registry size. |
| Lifecycle.StepPreservesValid | app/routers/clipboard.py:72-235 | Every request keeps ids unique, addresses unset, `created_at <= updated_at` and history ids increasing, provided the clock does not go back. This holds for the create handler both as written and corrected. |
| Lifecycle.StepAppendOnly | app/routers/clipboard.py:72-235 | History and the broadcast log only grow, by at most one entry per request. No request changes a row's id, creation time, device or address. This holds for the create handler both as written and corrected. |
| Lifecycle.CreateKeepsContentUnique | app/routers/clipboard.py:80-118 | The create handler never adds a second row holding stored content. |
| Lifecycle.AsWrittenAgreesWhileContentUnique | app/routers/clipboard.py:80-118 | While contents are unique, the handler as written and the corrected handler give the same outcome. |
| Lifecycle.CreateAsWrittenPreservesValid | app/routers/clipboard.py:80-118 | The create handler as written keeps the store invariant. |
| Lifecycle.TwoCreatesReachTwoRows | app/routers/clipboard.py:102-118 | The counterexample's starting store is the one reached by creating "a" and then "b" from the empty store: two rows and no history. |
| Lifecycle.EditBreaksAsWrittenDedup | app/routers/clipboard.py:80-85 | After an edit makes two rows hold "a", creating "a" fails in the handler as written. |
| Lifecycle.CorrectedRefreshesLatestTwin | app/routers/clipboard.py:80-99 | On the same store, the corrected handler refreshes the later-updated row. |
| Lifecycle.RepeatedCreate | app/routers/clipboard.py:80-99 | Creating the same content twice leaves one row. The second create returns the first one's row with `updated_at` advanced, and broadcasts "update". |
| Lifecycle.OmittedTypeResetsToText | app/routers/clipboard.py:137-138 | An update body without `content_type` sets the type to "text", because the default is truthy. |
| Lifecycle.NullTypeKeepsType | app/routers/clipboard.py:137-138 | An explicit `null` type leaves the row's type unchanged. |
| Lifecycle.EditVisibleToSync | app/routers/clipboard.py:136-139 | An edit made after a client's cursor appears, with its new content, in that client's next sync. |
| Lifecycle.SyncIgnoresRowOrder | app/routers/clipboard.py:212-219 | Delta-sync depends only on the multiset of rows. |
| Lifecycle.LaterCursorSeesLess | app/routers/clipboard.py:214-215 | A later cursor returns a sub-multiset of what an earlier cursor returns. |
| Lifecycle.DeleteIsFinal | app/routers/clipboard.py:166-171 | After a delete, a lookup and a second delete both answer 404, and the second delete broadcasts nothing. |
| Lifecycle.UpdateThenGet | app/routers/clipboard.py:128-157 | After an update, a lookup of the id returns the edited row. |
| Lifecycle.EditRecordedInHistory | app/routers/clipboard.py:142-146 | When earlier entries are strictly older than `now`, the edit appends exactly one entry recording the item, its new content and `now`, and a history query with limit one lists exactly that entry. |
| Lifecycle.InsertCounted | app/routers/clipboard.py:243-253 | An inserting create adds one to the total and one to the trailing-day count. |
| Lifecycle.DeleteCounted | app/routers/clipboard.py:166-170 | A successful delete takes one from the total. |
| Table.Find | app/routers/clipboard.py:63-65 | A lookup by id answers `None` iff no row has the id. Otherwise it returns a row with that id. |
| Table.ReplaceFind | app/routers/clipboard.py:136-139 | An update by primary key touches no other id, makes the new row what a lookup finds, and keeps ids unique. |
| Table.DeleteWhere | app/routers/clipboard.py:166-170 | After the delete no row has the id, and no other id changes. The row count is zero iff no row had the id. |
| Table.Latest | app/routers/clipboard.py:80-82 | The lookup finds a row with that content whenever one exists, and no match has a later `updated_at`. |
| Query.TopN | app/routers/clipboard.py:51 | `ORDER BY ... DESC LIMIT n` has the right length, is sorted, and draws from the input. It is a permutation when there is no limit, and nothing dropped outranks anything kept. |

## Left out

- `send_personal_message` (app/routers/clipboard.py:39-40) has no caller in the router, so it is not modelled.
- The keep-alive loop of the websocket endpoint is not modelled. It receives and discards text, and closing is `CloseChannel`.
- Concurrency between requests is not modelled. Each request is one atomic transition, and a broadcast is a single step.
- UUID generation is not modelled: the new id is an input, and only an id held by a live row is rejected (integrity error). The id of a deleted row is accepted for a new row, which then inherits that row's history entries. The model does not state that ids are never reused, which UUID4 makes overwhelmingly likely but does not guarantee.
- ISO-8601 timestamp formatting is not modelled. Timestamps stay integers, and `to_dict` carries them as `JTime`.
- Models.ToDict: the `None` branch for a missing timestamp is not modelled. Every row the handlers write has both timestamps set.
- Clipboard.History: the `None` branch for a missing history timestamp (app/routers/clipboard.py:200) is not modelled either. Every history entry is written with a timestamp.
- The model takes one clock reading per request. The service reads the clock separately for each of these: the `created_at` and `updated_at` column defaults, the history timestamp (at flush, after the handler's own reading), and the sync cursor (after the query). So the model has `created_at == updated_at` on insert, a history entry's timestamp equal to the edited row's `updated_at`, and the sync cursor read at the same instant as the query, where the service can differ by microseconds.
- String length limits (`String(50)`, `String(100)`, `String(45)`) are not enforced by SQLite. Pydantic's type coercion is not modelled either.
- The mix of naive and aware datetimes in the sync cursor is not modelled. Cursors and timestamps are one integer time line.
- Query.TopN: the order among rows with equal sort keys is left unspecified, as SQL leaves it.
- The handlers are modelled for a database that does not fail mid-request. Commit failures and rollbacks are not modelled.
- Connections.Disconnect: it raises `ValueError` on an unregistered channel, as `list.remove` does. It is not the idempotent removal a reader might expect.
- `app/main.py`, `app/database.py`, `run.py` and `app/static/script.js` are not part of this model. They cover application wiring, the database engine and the browser client.

## Findings

| source | as written | input that shows it | evidently intended | confidence | as-written member | corrected member |
|---|---|---|---|---|---|---|
| app/routers/clipboard.py:80-85 | The dedup lookup orders the matches by `updated_at` but calls `scalar_one_or_none`, which raises `MultipleResultsFound` when two rows hold the same content. | Create "a", create "b", update the second row's content to "a", then create "a". The last create fails. | Take the most recently updated match (`.first()` or `LIMIT 1`) and refresh it. | not executed | Clipboard.CreateItemAsWritten, Lifecycle.EditBreaksAsWrittenDedup | Clipboard.CreateItem, Lifecycle.CorrectedRefreshesLatestTwin |

=== FILE: basics.dfy ===
/** Shared vocabulary of the clipboard model: optional values, handler results
    and the error kinds a request can end in. */
module Basics {

  /** A value that may be missing (Python's `Optional`, SQL's NULL). */
  datatype Option<+T> = None | Some(value: T)

  /** Why a request did not succeed. */
  datatype Error =
    | NotFound              // HTTP 404 "Item not found"
    | MultipleResultsFound  // `scalar_one_or_none` saw more than one row
    | IntegrityError        // primary-key collision on insert
    | ValueError            // `list.remove` of an absent element
    | AcceptFailed          // the push channel's handshake did not complete
    | ValidationError       // a request body that does not match its schema

  /** The result of a request: a value, or the error it failed with. */
  datatype Result<+T> = Ok(value: T) | Err(error: Error)

  /** Timestamps are integer microseconds, the resolution of Python's `datetime`. */
  type Time = int

  /** `timedelta(days=1)` in microseconds. */
  const Day: int := 86_400_000_000
}

=== FILE: clipboard.dfy ===
/** The request handlers of the clipboard router as atomic transitions of an
    abstract store. Each mutating handler persists first and then broadcasts
    through the connection registry; a request that fails broadcasts nothing.
    The clock reading `now`, the id a new row would get, and the channels whose
    send fails are inputs. */
module Clipboard {
  import opened Basics
  import opened Models
  import opened Schemas
  import opened Query
  import opened Table
  import opened Connections

  /** Everything the handlers share: both tables, the connection registry,
      and the log of broadcasts sent so far. */
  datatype Store = Store(
    items: seq<Item>,
    history: seq<HistoryEntry>,
    connections: seq<Conn>,
    log: seq<Delivery>)

  /** The store after a request, and the request's response. */
  datatype Outcome<T> = Outcome(store: Store, response: Result<T>)

  /** The store with one more broadcast of `kind`/`data` to the current registry. */
  function Announce(s: Store, kind: Kind, data: Payload, failed: set<Conn>): Store {
    s.(log := s.log + [Broadcast(s.connections, Message(kind, data), failed)])
  }

  /** The broadcast carrying a whole item. */
  function ItemMessage(kind: Kind, item: Item): Message {
    Message(kind, ItemData(ToDict(item)))
  }

  /** A row differs from `before` in `updated_at` only, which now reads `now`. */
  predicate Touched(before: Item, after: Item, now: Time) {
    after == before.(updatedAt := now)
  }

  /** `create_clipboard_item`, with the dedup lookup taking the most recently updated
      match: a match is refreshed and announced as "update"; otherwise a new row is
      inserted and announced as "new". A fresh id that collides with a live row is a
      primary-key violation. */
  function CreateItem(s: Store, req: CreateRequest, now: Time, freshId: Id, failed: set<Conn>): (o: Outcome<Item>)
    ensures o.store.history == s.history && o.store.connections == s.connections
    ensures UniqueIds(s.items) ==> UniqueIds(o.store.items)
    ensures o.response.Err? <==> Latest(s.items, req.content).None? && Find(s.items, freshId).Some?
    ensures o.response.Err? ==> o.response.error == IntegrityError && o.store == s
    // A match: no row is added, only the matched row's updated_at moves.
    ensures Latest(s.items, req.content).Some? ==>
      && o.response.Ok?
      && Touched(Latest(s.items, req.content).value, o.response.value, now)
      && |o.store.items| == |s.items|
      && Find(o.store.items, o.response.value.id) == Some(o.response.value)
      && SameExcept(s.items, o.store.items, o.response.value.id)
      && o.store.log == s.log + [Broadcast(s.connections, ItemMessage(Update, o.response.value), failed)]
    // No match: exactly one new row, built from the request.
    ensures Latest(s.items, req.content).None? && Find(s.items, freshId).None? ==>
      && o.response.Ok?
      && var item := o.response.value;
      && item.id == freshId && item.content == req.content
      && item.contentType == req.contentType && item.deviceName == req.deviceName
      && item.ipAddress.None? && item.createdAt == now && item.updatedAt == now
      && |o.store.items| == |s.items| + 1
      && Find(o.store.items, freshId) == Some(item)
      && SameExcept(s.items, o.store.items, freshId)
      && o.store.log == s.log + [Broadcast(s.connections, ItemMessage(New, item), failed)]
  {
    match Latest(s.items, req.content)
    case Some(existing) =>
      var item := existing.(updatedAt := now);
      var items := Replace(s.items, item.id, item);
      ReplaceFind(s.items, item.id, item);
      Outcome(Announce(s.(items := items), Update, ItemData(ToDict(item)), failed), Ok(item))
    case None =>
      if Find(s.items, freshId).Some? then Outcome(s, Err(IntegrityError))
      else
        var item := NewItem(freshId, req.content, req.contentType, req.deviceName, now);
        var items := s.items + [item];
        FindAppendEvery(s.items, item);
        Outcome(Announce(s.(items := items), New, ItemData(ToDict(item)), failed), Ok(item))
  }

  /** `create_clipboard_item` as written: `scalar_one_or_none` raises when more than one
      row holds the content, so the request fails before anything is written; with at
      most one match it refreshes or inserts exactly as `CreateItem` does. */
  function CreateItemAsWritten(s: Store, req: CreateRequest, now: Time, freshId: Id, failed: set<Conn>): (o: Outcome<Item>)
    ensures |Matches(s.items, req.content)| > 1 <==> o.response == Err(MultipleResultsFound)
    ensures o.response.Err? ==> o.store == s
    // With at most one match it behaves as the corrected handler: refresh or insert.
    ensures |Matches(s.items, req.content)| <= 1 ==> o == CreateItem(s, req, now, freshId, failed)
  {
    var found := Matches(s.items, req.content);
    LatestOfFewMatches(s.items, req.content);
    if |found| > 1 then Outcome(s, Err(MultipleResultsFound))
    else if |found| == 1 then
      var item := found[0].(updatedAt := now);
      var items := Replace(s.items, item.id, item);
      Outcome(Announce(s.(items := items), Update, ItemData(ToDict(item)), failed), Ok(item))
    else if Find(s.items, freshId).Some? then Outcome(s, Err(IntegrityError))
    else
      var item := NewItem(freshId, req.content, req.contentType, req.deviceName, now);
      Outcome(Announce(s.(items := s.items + [item]), New, ItemData(ToDict(item)), failed), Ok(item))
  }

  /** Python truthiness of an optional string: present and non-empty. */
  predicate Truthy(o: Option<string>) {
    o.Some? && o.value != ""
  }

  /** The id SQLite gives the next history row: one past the largest so far. */
  function NextHistoryId(history: seq<HistoryEntry>): (n: nat)
    ensures n >= 1
    ensures forall i :: 0 <= i < |history| ==> history[i].id < n
  {
    if |history| == 0 then 1
    else
      var n := NextHistoryId(history[..|history| - 1]);
      var last := history[|history| - 1].id;
      assert forall i :: 0 <= i < |history| - 1 ==> history[i] == history[..|history| - 1][i];
      if last < n then n else last + 1
  }

  /** `update_clipboard_item`: an unknown id is a 404 with nothing written or sent;
      otherwise the row takes the new content (and the new content type when one is
      truthy), one history entry records the new content, and "update" is broadcast. */
  function UpdateItem(s: Store, id: Id, req: UpdateRequest, now: Time, failed: set<Conn>): (o: Outcome<Item>)
    ensures o.store.connections == s.connections
    ensures UniqueIds(s.items) ==> UniqueIds(o.store.items)
    ensures o.response.Err? <==> Find(s.items, id).None?
    ensures o.response.Err? ==> o.response.error == NotFound && o.store == s
    ensures o.response.Ok? ==>
      var before := Find(s.items, id).value;
      var after := o.response.value;
      && after.id == id
      && after.content == req.content
      && after.contentType == (if Truthy(req.contentType) then req.contentType.value else before.contentType)
      && after.deviceName == before.deviceName && after.ipAddress == before.ipAddress
      && after.createdAt == before.createdAt && after.updatedAt == now
      && |o.store.items| == |s.items|
      && Find(o.store.items, id) == Some(after)
      && SameExcept(s.items, o.store.items, id)
      && o.store.log == s.log + [Broadcast(s.connections, ItemMessage(Update, after), failed)]
    // The history log grows by exactly one entry, with a fresh id, recording the new content.
    ensures o.response.Ok? ==>
      && |o.store.history| == |s.history| + 1
      && o.store.history[..|s.history|] == s.history
      && var entry := o.store.history[|s.history|];
      && entry.itemId == id && entry.content == req.content && entry.timestamp == now
      && forall i :: 0 <= i < |s.history| ==> s.history[i].id < entry.id
  {
    match Find(s.items, id)
    case None => Outcome(s, Err(NotFound))
    case Some(before) =>
      var contentType := if Truthy(req.contentType) then req.contentType.value else before.contentType;
      var after := before.(content := req.content, contentType := contentType, updatedAt := now);
      var entry := HistoryEntry(NextHistoryId(s.history), id, req.content, now);
      ReplaceFind(s.items, id, after);
      var written := s.(items := Replace(s.items, id, after), history := s.history + [entry]);
      Outcome(Announce(written, Update, ItemData(ToDict(after)), failed), Ok(after))
  }

  /** `delete_clipboard_item`: the row count of the DELETE decides; none removed is a
      404 with no broadcast, otherwise "delete" is broadcast with the id. History stays. */
  function DeleteItem(s: Store, id: Id, failed: set<Conn>): (o: Outcome<()>)
    ensures o.store.history == s.history && o.store.connections == s.connections
    ensures o.response.Err? <==> Find(s.items, id).None?
    ensures o.response.Err? ==> o.response.error == NotFound && o.store == s
    ensures o.response.Ok? ==>
      && Find(o.store.items, id).None?
      && SameExcept(s.items, o.store.items, id)
      && o.store.log == s.log + [Broadcast(s.connections, Message(Delete, DeletedId(id)), failed)]
    ensures o.response.Ok? && UniqueIds(s.items) ==> |o.store.items| == |s.items| - 1
    ensures UniqueIds(s.items) ==> UniqueIds(o.store.items)
  {
    var remaining := DeleteWhere(s.items, id);
    var rowCount := |s.items| - |remaining|;
    DeleteWhereUnique(s.items, id);
    if rowCount == 0 then Outcome(s, Err(NotFound))
    else Outcome(Announce(s.(items := remaining), Delete, DeletedId(id), failed), Ok(()))
  }

  /** `get_clipboard_item`: the row with that id, or a 404. */
  function GetItem(s: Store, id: Id): (r: Result<Item>)
    ensures r.Ok? <==> exists i :: 0 <= i < |s.items| && s.items[i].id == id
    ensures r.Ok? ==> r.value in s.items && r.value.id == id
    ensures r.Err? ==> r.error == NotFound
  {
    match Find(s.items, id)
    case Some(item) => Ok(item)
    case None => Err(NotFound)
  }

  /** Default of the `limit` query parameter of `get_clipboard_items`. */
  const DefaultListLimit: int := 10

  /** Default of the `limit` query parameter of `get_clipboard_history`. */
  const DefaultHistoryLimit: int := 20

  /** An integer query parameter with a default: left out, it reads as the default. */
  function QueryLimit(given: Option<int>, default: int): int {
    match given
    case Some(n) => n
    case None => default
  }

  /** `get_clipboard_items`: the `limit` most recently updated rows, newest first
      (SQLite reads a negative limit as no limit); ten when no limit is given. */
  function ListItems(s: Store, limit: Option<int>): (r: seq<Item>)
    ensures limit.Some? ==> |r| == if 0 <= limit.value < |s.items| then limit.value else |s.items|
    ensures limit.None? ==> |r| == if DefaultListLimit < |s.items| then DefaultListLimit else |s.items|
    ensures SortedDesc(r, UpdatedAt)
    ensures multiset(r) <= multiset(s.items)
    ensures forall x :: x in s.items && x !in r ==> forall y :: y in r ==> y.updatedAt >= x.updatedAt
  {
    TopN(s.items, UpdatedAt, QueryLimit(limit, DefaultListLimit))
  }

  /** The sort key of history queries. */
  function Timestamp(e: HistoryEntry): int {
    e.timestamp
  }

  /** `WHERE item_id = ?` on the history table, in insertion order. */
  function ItemEntries(history: seq<HistoryEntry>, itemId: Id): (r: seq<HistoryEntry>)
    ensures forall e :: e in r <==> e in history && e.itemId == itemId
  {
    var belongs := (e: HistoryEntry) => e.itemId == itemId;
    FilterMembers(history, belongs);
    Filter(history, belongs)
  }

  /** The history rows of `get_clipboard_history`: the item's entries, newest first, at most `limit`. */
  function HistoryEntries(s: Store, itemId: Id, limit: int): (r: seq<HistoryEntry>)
    ensures forall e :: e in r ==> e in s.history && e.itemId == itemId
    ensures SortedDesc(r, Timestamp)
    ensures |r| == if 0 <= limit < |ItemEntries(s.history, itemId)| then limit else |ItemEntries(s.history, itemId)|
    ensures limit < 0 ==> forall e :: e in s.history && e.itemId == itemId ==> e in r
    ensures forall e :: e in s.history && e.itemId == itemId && e !in r ==>
      forall f :: f in r ==> f.timestamp >= e.timestamp
  {
    var mine := ItemEntries(s.history, itemId);
    TopNMembers(mine, Timestamp, limit);
    TopN(mine, Timestamp, limit)
  }

  /** `get_clipboard_history`: each entry as its id, content and timestamp, at most
      twenty when no limit is given. */
  function History(s: Store, itemId: Id, limit: Option<int>): (r: seq<HistoryView>)
    ensures |r| == |HistoryEntries(s, itemId, QueryLimit(limit, DefaultHistoryLimit))|
    ensures forall i :: 0 <= i < |r| ==>
      r[i] == ViewOf(HistoryEntries(s, itemId, QueryLimit(limit, DefaultHistoryLimit))[i])
    ensures forall i, j :: 0 <= i < j < |r| ==> r[i].timestamp >= r[j].timestamp
    ensures limit.None? ==> |r| <= DefaultHistoryLimit
    ensures limit.Some? && limit.value >= 0 ==> |r| <= limit.value
  {
    var entries := HistoryEntries(s, itemId, QueryLimit(limit, DefaultHistoryLimit));
    seq(|entries|, i requires 0 <= i < |entries| => ViewOf(entries[i]))
  }

  /** Whether a row is newer than the client's cursor; without a cursor every row is. */
  predicate ChangedAfter(x: Item, cursor: Option<Time>) {
    cursor.None? || x.updatedAt > cursor.value
  }

  /** The rows `sync_clipboard` returns: exactly those updated strictly after the cursor
      (all rows without one), newest first. */
  function Changed(items: seq<Item>, cursor: Option<Time>): (r: seq<Item>)
    ensures forall x :: multiset(r)[x] == if ChangedAfter(x, cursor) then multiset(items)[x] else 0
    ensures forall x :: x in r <==> x in items && ChangedAfter(x, cursor)
    ensures SortedDesc(r, UpdatedAt)
  {
    var after := (x: Item) => ChangedAfter(x, cursor);
    var selected := Filter(items, after);
    FilterMembers(items, after);
    var r := SortDesc(selected, UpdatedAt);
    assert forall x :: x in r <==> x in selected by {
      forall x ensures x in r <==> x in selected {
        assert x in r <==> x in multiset(r);
        assert x in selected <==> x in multiset(selected);
      }
    }
    r
  }

  /** The answer to a delta-sync: a new cursor and the changed rows as dictionaries. */
  datatype SyncResponse = SyncResponse(lastSync: Time, items: seq<Dict>)

  /** `sync_clipboard`: the changed rows, serialised, and `now` as the client's next cursor. */
  function Sync(s: Store, req: SyncRequest, now: Time): (r: SyncResponse)
    ensures r.lastSync == now
    ensures |r.items| == |Changed(s.items, req.lastSync)|
    ensures forall i :: 0 <= i < |r.items| ==> FromDict(r.items[i]) == Some(Changed(s.items, req.lastSync)[i])
  {
    var changed := Changed(s.items, req.lastSync);
    SyncResponse(now, seq(|changed|, i requires 0 <= i < |changed| => ToDict(changed[i])))
  }

  /** The websocket endpoint opening: the channel is accepted and registered. */
  function OpenChannel(s: Store, ws: Conn, accepted: bool): (o: Outcome<()>)
    ensures o.store.items == s.items && o.store.history == s.history && o.store.log == s.log
    ensures o.response.Ok? <==> accepted
    ensures o.response.Ok? ==> o.store.connections == s.connections + [ws]
    ensures o.response.Err? ==> o.response.error == AcceptFailed
    ensures o.response.Err? ==> o.store == s
  {
    match Connect(s.connections, ws, accepted)
    case Ok(conns) => Outcome(s.(connections := conns), Ok(()))
    case Err(e) => Outcome(s, Err(e))
  }

  /** The websocket endpoint closing: the channel leaves the registry; a channel that
      is not registered makes `list.remove` raise. */
  function CloseChannel(s: Store, ws: Conn): (o: Outcome<()>)
    ensures o.store.items == s.items && o.store.history == s.history && o.store.log == s.log
    ensures o.response.Ok? <==> ws in s.connections
    ensures o.response.Err? ==> o.response.error == ValueError && o.store == s
    ensures o.response.Ok? ==> multiset(o.store.connections) == multiset(s.connections) - multiset{ws}
    ensures o.response.Ok? ==> Disconnect(s.connections, ws) == Ok(o.store.connections)
  {
    match Disconnect(s.connections, ws)
    case Ok(conns) => Outcome(s.(connections := conns), Ok(()))
    case Err(e) => Outcome(s, Err(e))
  }
}

=== FILE: connections.dfy ===
/** `ConnectionManager`: the registry of live push channels and best-effort
    broadcast to them. Sending is abstract: the channels whose send fails
    during one broadcast are given as the set `failed`. */
module Connections {
  import opened Basics
  import opened Models

  /** A push channel, by identity. */
  type Conn = nat

  /** The `type` tag of a broadcast. */
  datatype Kind = New | Update | Delete

  /** The `type` field of a broadcast on the wire. */
  function KindName(k: Kind): (name: string)
    ensures name in {"new", "update", "delete"}
  {
    match k
    case New => "new"
    case Update => "update"
    case Delete => "delete"
  }

  /** Clients tell the three kinds apart by their `type` field. */
  lemma KindNameInjective(a: Kind, b: Kind)
    ensures KindName(a) == KindName(b) ==> a == b
  {
    if a != b {
      assert KindName(a)[0] != KindName(b)[0];
    }
  }

  /** The `data` of a broadcast: a whole item, or just the id of a deleted one. */
  datatype Payload = ItemData(fields: Dict) | DeletedId(id: Id)

  datatype Message = Message(kind: Kind, data: Payload)

  /** The JSON object a broadcast sends: its `type` tag and its `data`. */
  datatype WireMessage = WireMessage(messageType: string, data: Payload)

  /** `{"type": ..., "data": ...}` as the handlers build it. */
  function ToWire(msg: Message): (w: WireMessage)
    ensures w.data == msg.data
    ensures w.messageType in {"new", "update", "delete"}
  {
    WireMessage(KindName(msg.kind), msg.data)
  }

  /** A client reading the wire form recovers the message. */
  lemma ToWireInjective(a: Message, b: Message)
    ensures ToWire(a) == ToWire(b) ==> a == b
  {
    KindNameInjective(a.kind, b.kind);
  }

  /** One broadcast as it happened: the message, the JSON object sent for it, and the
      channels that received it. */
  datatype Delivery = Delivery(message: Message, sent: WireMessage, delivered: seq<Conn>)

  /** `connect`: the channel joins the end of the registry once its handshake is accepted;
      a failed handshake raises before anything is registered. */
  function Connect(conns: seq<Conn>, ws: Conn, accepted: bool): (r: Result<seq<Conn>>)
    ensures r.Ok? <==> accepted
    ensures r.Err? ==> r.error == AcceptFailed
    ensures r.Ok? ==> |r.value| == |conns| + 1 && r.value[|conns|] == ws
    ensures r.Ok? ==> forall i :: 0 <= i < |conns| ==> r.value[i] == conns[i]
  {
    if accepted then Ok(conns + [ws]) else Err(AcceptFailed)
  }

  /** Position of the first occurrence of `ws`, where `list.remove` looks. */
  function FirstIndex(conns: seq<Conn>, ws: Conn): (i: nat)
    requires ws in conns
    ensures i < |conns| && conns[i] == ws
    ensures ws !in conns[..i]
  {
    if conns[0] == ws then 0
    else
      var j := FirstIndex(conns[1..], ws);
      assert conns[..j + 1] == [conns[0]] + conns[1..][..j];
      j + 1
  }

  /** `disconnect`: `list.remove` drops the first occurrence and raises `ValueError`
      when the channel is not registered. */
  function Disconnect(conns: seq<Conn>, ws: Conn): (r: Result<seq<Conn>>)
    ensures r.Ok? <==> ws in conns
    ensures r.Err? ==> r.error == ValueError
    ensures r.Ok? ==> |r.value| == |conns| - 1
    ensures r.Ok? ==> multiset(r.value) == multiset(conns) - multiset{ws}
    ensures r.Ok? ==> r.value == conns[..FirstIndex(conns, ws)] + conns[FirstIndex(conns, ws) + 1..]
  {
    if ws !in conns then Err(ValueError)
    else
      var i := FirstIndex(conns, ws);
      assert conns == conns[..i] + [ws] + conns[i + 1..];
      Ok(conns[..i] + conns[i + 1..])
  }

  /** Disconnecting a channel right after connecting it restores the registry. */
  lemma DisconnectUndoesConnect(conns: seq<Conn>, ws: Conn)
    requires ws !in conns
    ensures Connect(conns, ws, true).Ok?
    ensures Disconnect(Connect(conns, ws, true).value, ws) == Ok(conns)
  {
    var joined := conns + [ws];
    var i := FirstIndex(joined, ws);
    assert i == |conns|;
    assert joined[..i] == conns && joined[i + 1..] == [];
    assert joined[..i] + joined[i + 1..] == conns;
  }

  /** The channels of `conns` whose send succeeds, in registry order. */
  function Deliver(conns: seq<Conn>, failed: set<Conn>): (r: seq<Conn>)
    ensures |r| <= |conns|
    ensures forall c :: c in r <==> c in conns && c !in failed
  {
    if |conns| == 0 then []
    else
      var last := conns[|conns| - 1];
      assert conns == conns[..|conns| - 1] + [last];
      Deliver(conns[..|conns| - 1], failed) + (if last in failed then [] else [last])
  }

  /** `broadcast` as its loop: every registered channel is tried, and a failing send is
      swallowed so the remaining channels are still tried. */
  method BroadcastLoop(conns: seq<Conn>, failed: set<Conn>) returns (delivered: seq<Conn>)
    ensures delivered == Deliver(conns, failed)
    ensures forall c :: c in conns && c !in failed ==> c in delivered
  {
    delivered := [];
    var i := 0;
    while i < |conns|
      invariant 0 <= i <= |conns|
      invariant delivered == Deliver(conns[..i], failed)
    {
      var c := conns[i];
      assert conns[..i + 1][..i] == conns[..i];
      if c !in failed {
        delivered := delivered + [c];
      }
      i := i + 1;
    }
    assert conns[..i] == conns;
  }

  /** One broadcast of `msg` to the registry `conns`. */
  function Broadcast(conns: seq<Conn>, msg: Message, failed: set<Conn>): (d: Delivery)
    ensures d.message == msg
    ensures d.sent == WireMessage(KindName(msg.kind), msg.data)
    ensures forall c :: c in conns && c !in failed ==> c in d.delivered
    ensures forall c :: c in d.delivered ==> c in conns && c !in failed
  {
    Delivery(msg, ToWire(msg), Deliver(conns, failed))
  }
}

=== FILE: lifecycle.dfy ===
/** Properties that relate several requests: the store invariant every mutating
    request keeps, what never changes about a row once written, the dedup
    engine's one-row-per-content view, and how delta-sync, history and stats
    see the effect of writes. */
module Lifecycle {
  import opened Basics
  import opened Models
  import opened Schemas
  import opened Query
  import opened Table
  import opened Connections
  import opened Clipboard
  import opened Stats

  /** What holds of every store the handlers can reach: the primary key, no
      `ip_address` ever written, `created_at <= updated_at`, and history ids
      increasing in insertion order. */
  predicate Valid(s: Store) {
    && UniqueIds(s.items)
    && (forall i :: 0 <= i < |s.items| ==> s.items[i].ipAddress.None?)
    && (forall i :: 0 <= i < |s.items| ==> s.items[i].createdAt <= s.items[i].updatedAt)
    && (forall i, j :: 0 <= i < j < |s.history| ==> s.history[i].id < s.history[j].id)
  }

  /** The clock has not gone back behind any row. */
  predicate NotBefore(s: Store, now: Time) {
    forall i :: 0 <= i < |s.items| ==> s.items[i].updatedAt <= now
  }

  /** A request as the router receives it, after validation. A create runs either the
      corrected handler or the handler as written. */
  datatype Event =
    | CreateEvent(create: CreateRequest, freshId: Id)
    | CreateAsWrittenEvent(createAsWritten: CreateRequest, newId: Id)
    | UpdateEvent(id: Id, update: UpdateRequest)
    | DeleteEvent(deleteId: Id)
    | OpenEvent(ws: Conn, accepted: bool)
    | CloseEvent(closing: Conn)

  /** The store after one request. */
  function Step(s: Store, e: Event, now: Time, failed: set<Conn>): Store {
    match e
    case CreateEvent(req, freshId) => CreateItem(s, req, now, freshId, failed).store
    case CreateAsWrittenEvent(req, freshId) => CreateItemAsWritten(s, req, now, freshId, failed).store
    case UpdateEvent(id, req) => UpdateItem(s, id, req, now, failed).store
    case DeleteEvent(id) => DeleteItem(s, id, failed).store
    case OpenEvent(ws, accepted) => OpenChannel(s, ws, accepted).store
    case CloseEvent(ws) => CloseChannel(s, ws).store
  }

  /** Two versions of a row that agree on everything fixed at insertion. */
  predicate SameOrigin(a: Item, b: Item) {
    a.id == b.id && a.createdAt == b.createdAt && a.deviceName == b.deviceName && a.ipAddress == b.ipAddress
  }

  /** Every row present before and after still has its id, creation time, device and address. */
  ghost predicate KeepsOrigins(before: seq<Item>, after: seq<Item>) {
    forall j :: Find(before, j).Some? && Find(after, j).Some? ==> SameOrigin(Find(before, j).value, Find(after, j).value)
  }

  /** A create keeps the store invariant. */
  lemma CreatePreservesValid(s: Store, req: CreateRequest, now: Time, freshId: Id, failed: set<Conn>)
    requires Valid(s) && NotBefore(s, now)
    ensures Valid(CreateItem(s, req, now, freshId, failed).store)
  {
    var t := CreateItem(s, req, now, freshId, failed).store;
    if Latest(s.items, req.content).Some? {
      var x := Latest(s.items, req.content).value;
      var item := x.(updatedAt := now);
      assert t.items == Replace(s.items, x.id, item);
      var k :| 0 <= k < |s.items| && s.items[k] == x;
      forall i | 0 <= i < |t.items|
        ensures t.items[i].ipAddress.None? && t.items[i].createdAt <= t.items[i].updatedAt
      {
        assert t.items[i] == s.items[i] || t.items[i] == item;
      }
    } else if Find(s.items, freshId).None? {
      assert t.items == s.items + [t.items[|s.items|]];
    }
  }

  /** The create handler as written keeps the store invariant too: with several matches
      it writes nothing, and otherwise it is the corrected handler. */
  lemma CreateAsWrittenPreservesValid(s: Store, req: CreateRequest, now: Time, freshId: Id, failed: set<Conn>)
    requires Valid(s) && NotBefore(s, now)
    ensures Valid(CreateItemAsWritten(s, req, now, freshId, failed).store)
  {
    if |Matches(s.items, req.content)| <= 1 {
      CreatePreservesValid(s, req, now, freshId, failed);
    }
  }

  /** An update keeps the store invariant. */
  lemma UpdatePreservesValid(s: Store, id: Id, req: UpdateRequest, now: Time, failed: set<Conn>)
    requires Valid(s) && NotBefore(s, now)
    ensures Valid(UpdateItem(s, id, req, now, failed).store)
  {
    var o := UpdateItem(s, id, req, now, failed);
    var t := o.store;
    if o.response.Ok? {
      var before := Find(s.items, id).value;
      var after := o.response.value;
      assert t.items == Replace(s.items, id, after);
      var k :| 0 <= k < |s.items| && s.items[k] == before;
      forall i | 0 <= i < |t.items|
        ensures t.items[i].ipAddress.None? && t.items[i].createdAt <= t.items[i].updatedAt
      {
        assert t.items[i] == s.items[i] || t.items[i] == after;
      }
      forall i, j | 0 <= i < j < |t.history|
        ensures t.history[i].id < t.history[j].id
      {
        if j == |s.history| {
          assert t.history[i] == s.history[i];
        } else {
          assert t.history[i] == s.history[i] && t.history[j] == s.history[j];
        }
      }
    }
  }

  /** A delete keeps the store invariant. */
  lemma DeletePreservesValid(s: Store, id: Id, failed: set<Conn>)
    requires Valid(s)
    ensures Valid(DeleteItem(s, id, failed).store)
  {
    var t := DeleteItem(s, id, failed).store;
    forall i | 0 <= i < |t.items|
      ensures t.items[i] in s.items
    {
      assert t.items[i] in multiset(t.items);
    }
  }

  /** Every request keeps the store invariant, provided the clock has not gone back. */
  lemma StepPreservesValid(s: Store, e: Event, now: Time, failed: set<Conn>)
    requires Valid(s) && NotBefore(s, now)
    ensures Valid(Step(s, e, now, failed))
  {
    match e
    case CreateEvent(req, freshId) => CreatePreservesValid(s, req, now, freshId, failed);
    case CreateAsWrittenEvent(req, freshId) => CreateAsWrittenPreservesValid(s, req, now, freshId, failed);
    case UpdateEvent(id, req) => UpdatePreservesValid(s, id, req, now, failed);
    case DeleteEvent(id) => DeletePreservesValid(s, id, failed);
    case OpenEvent(ws, accepted) =>
    case CloseEvent(ws) =>
  }

  /** A create changes no row's origin. */
  lemma CreateKeepsOrigins(s: Store, req: CreateRequest, now: Time, freshId: Id, failed: set<Conn>)
    requires UniqueIds(s.items)
    ensures KeepsOrigins(s.items, CreateItem(s, req, now, freshId, failed).store.items)
  {
    var o := CreateItem(s, req, now, freshId, failed);
    if Latest(s.items, req.content).Some? {
      var x := Latest(s.items, req.content).value;
      var k :| 0 <= k < |s.items| && s.items[k] == x;
      FindRow(s.items, k);
      assert Find(o.store.items, x.id) == Some(o.response.value);
    }
  }

  /** The create handler as written changes no row's origin either. */
  lemma CreateAsWrittenKeepsOrigins(s: Store, req: CreateRequest, now: Time, freshId: Id, failed: set<Conn>)
    requires UniqueIds(s.items)
    ensures KeepsOrigins(s.items, CreateItemAsWritten(s, req, now, freshId, failed).store.items)
  {
    if |Matches(s.items, req.content)| <= 1 {
      CreateKeepsOrigins(s, req, now, freshId, failed);
    }
  }

  /** An update changes no row's origin. */
  lemma UpdateKeepsOrigins(s: Store, id: Id, req: UpdateRequest, now: Time, failed: set<Conn>)
    ensures KeepsOrigins(s.items, UpdateItem(s, id, req, now, failed).store.items)
  {
  }

  /** A delete changes no row's origin. */
  lemma DeleteKeepsOrigins(s: Store, id: Id, failed: set<Conn>)
    ensures KeepsOrigins(s.items, DeleteItem(s, id, failed).store.items)
  {
  }

  /** The history and the broadcast log only grow, by at most one entry a request,
      and no request changes what was fixed when a row was inserted. */
  lemma StepAppendOnly(s: Store, e: Event, now: Time, failed: set<Conn>)
    requires Valid(s)
    ensures s.history <= Step(s, e, now, failed).history
    ensures s.log <= Step(s, e, now, failed).log
    ensures |Step(s, e, now, failed).log| <= |s.log| + 1
    ensures |Step(s, e, now, failed).history| <= |s.history| + 1
    ensures KeepsOrigins(s.items, Step(s, e, now, failed).items)
  {
    match e
    case CreateEvent(req, freshId) => CreateKeepsOrigins(s, req, now, freshId, failed);
    case CreateAsWrittenEvent(req, freshId) => CreateAsWrittenKeepsOrigins(s, req, now, freshId, failed);
    case UpdateEvent(id, req) => UpdateKeepsOrigins(s, id, req, now, failed);
    case DeleteEvent(id) => DeleteKeepsOrigins(s, id, failed);
    case OpenEvent(ws, accepted) =>
    case CloseEvent(ws) =>
  }

  /** The dedup engine keeps "one row per content": a create never adds a second
      row holding content that is already stored. */
  lemma CreateKeepsContentUnique(s: Store, req: CreateRequest, now: Time, freshId: Id, failed: set<Conn>)
    requires UniqueIds(s.items) && ContentUnique(s.items)
    ensures ContentUnique(CreateItem(s, req, now, freshId, failed).store.items)
  {
    var t := CreateItem(s, req, now, freshId, failed).store;
    if Latest(s.items, req.content).Some? {
      var x := Latest(s.items, req.content).value;
      assert t.items == Replace(s.items, x.id, x.(updatedAt := now));
      var k :| 0 <= k < |s.items| && s.items[k] == x;
      forall i | 0 <= i < |t.items|
        ensures t.items[i].content == s.items[i].content
      {
        if s.items[i].id == x.id {
          assert i == k;
        }
      }
    } else if Find(s.items, freshId).None? {
      assert t.items == s.items + [t.items[|s.items|]];
    }
  }

  /** While contents are unique the handler as written and the corrected one agree. */
  lemma AsWrittenAgreesWhileContentUnique(s: Store, req: CreateRequest, now: Time, freshId: Id, failed: set<Conn>)
    requires ContentUnique(s.items)
    ensures CreateItemAsWritten(s, req, now, freshId, failed) == CreateItem(s, req, now, freshId, failed)
  {
    UniqueContentMatch(s.items, req.content);
    var found := Matches(s.items, req.content);
  }

  /** The counterexample's starting store: "a" and then "b" created from the empty store. */
  function TwoRows(): Store {
    var empty := Store([], [], [], []);
    var first := CreateItem(empty, CreateRequest("a", "text", None), 0, "1", {}).store;
    CreateItem(first, CreateRequest("b", "text", None), 0, "2", {}).store
  }

  /** The two creates insert one row each and write no history. */
  lemma TwoCreatesReachTwoRows()
    ensures TwoRows().items == [NewItem("1", "a", "text", None, 0), NewItem("2", "b", "text", None, 0)]
    ensures TwoRows().history == []
  {
    var empty := Store([], [], [], []);
    var first := CreateItem(empty, CreateRequest("a", "text", None), 0, "1", {}).store;
    assert first.items == [NewItem("1", "a", "text", None, 0)];
    assert Latest(first.items, "b").None?;
    assert Find(first.items, "2").None?;
  }

  /** The rows after editing the second row's content to "a" at time 10. */
  function TwinRows(): seq<Item> {
    [NewItem("1", "a", "text", None, 0), NewItem("2", "a", "text", None, 0).(updatedAt := 10)]
  }

  /** The edit that produces the twins. */
  function EditToTwin(): Outcome<Item> {
    UpdateItem(TwoRows(), "2", UpdateRequest("a", None), 10, {})
  }

  /** The edit writes the second row over, leaving the first alone. */
  lemma EditMakesTwins()
    ensures EditToTwin().store.items == TwinRows()
  {
    var s := TwoRows();
    TwoCreatesReachTwoRows();
    var after := s.items[1].(content := "a", updatedAt := 10);
    assert Find(s.items, "2") == Some(s.items[1]);
    assert EditToTwin().store.items == Replace(s.items, "2", after);
  }

  /** Both twins hold "a", so the as-written lookup sees two rows; the later twin is the latest. */
  lemma TwinsMatch()
    ensures |Matches(TwinRows(), "a")| > 1
    ensures Latest(TwinRows(), "a") == Some(TwinRows()[1])
  {
    var rows := TwinRows();
    var m := Matches(rows, "a");
    assert rows[0] in m && rows[1] in m;
    assert rows[1].content == "a";
  }

  /** The counterexample starts from a reachable-looking store with unique contents. */
  lemma TwoRowsValid()
    ensures Valid(TwoRows()) && ContentUnique(TwoRows().items)
  {
    TwoCreatesReachTwoRows();
  }

  /** An edit can make two rows hold the same content; the next create of that content
      then fails in the handler as written. */
  lemma EditBreaksAsWrittenDedup()
    ensures !ContentUnique(EditToTwin().store.items)
    ensures CreateItemAsWritten(EditToTwin().store, CreateRequest("a", "text", None), 20, "3", {}).response
      == Err(MultipleResultsFound)
  {
    var e := EditToTwin().store;
    EditMakesTwins();
    TwinsMatch();
    assert e.items[0].content == e.items[1].content;
  }

  /** On the same store the corrected lookup refreshes the most recently updated twin. */
  lemma CorrectedRefreshesLatestTwin()
    ensures CreateItem(EditToTwin().store, CreateRequest("a", "text", None), 20, "3", {}).response
      == Ok(TwinRows()[1].(updatedAt := 20))
  {
    var e := EditToTwin().store;
    EditMakesTwins();
    TwinsMatch();
    assert Latest(e.items, "a") == Some(TwinRows()[1]);
  }

  /** Under "one row per content", a stored row is what the dedup lookup of its content finds. */
  lemma LatestOfStoredRow(items: seq<Item>, x: Item)
    requires ContentUnique(items)
    requires x in items
    ensures Latest(items, x.content) == Some(x)
  {
    var v := Latest(items, x.content).value;
    var k :| 0 <= k < |items| && items[k] == x;
    var m :| 0 <= m < |items| && items[m] == v;
    if k < m {
      assert items[k].content != items[m].content;
    } else if m < k {
      assert items[m].content != items[k].content;
    }
  }

  /** Creating the same content twice leaves one row: the second create returns the
      first one's row with `updated_at` advanced and its device kept, and adds nothing. */
  lemma RepeatedCreate(s: Store, first: CreateRequest, second: CreateRequest, t1: Time, t2: Time,
                       id1: Id, id2: Id, failed: set<Conn>)
    requires UniqueIds(s.items) && ContentUnique(s.items)
    requires first.content == second.content
    requires CreateItem(s, first, t1, id1, failed).response.Ok?
    ensures var o1 := CreateItem(s, first, t1, id1, failed);
      var o2 := CreateItem(o1.store, second, t2, id2, failed);
      && o2.response.Ok?
      && |o2.store.items| == |o1.store.items|
      && o2.response.value == o1.response.value.(updatedAt := t2)
      && o2.response.value.deviceName == o1.response.value.deviceName
      && o2.store.log[|o1.store.log|].message.kind == Update
      && o2.store.log[|o1.store.log|].sent.messageType == "update"
  {
    var o1 := CreateItem(s, first, t1, id1, failed);
    var item := o1.response.value;
    CreateKeepsContentUnique(s, first, t1, id1, failed);
    assert Find(o1.store.items, item.id) == Some(item);
    LatestOfStoredRow(o1.store.items, item);
  }

  /** An update body without `content_type` carries the default "text", which is
      truthy, so the edited row's type becomes "text" whatever it was. */
  lemma OmittedTypeResetsToText(s: Store, id: Id, content: string, now: Time, failed: set<Conn>)
    requires Find(s.items, id).Some?
    ensures ParseUpdate(Given(content), Absent).Ok?
    ensures var o := UpdateItem(s, id, ParseUpdate(Given(content), Absent).value, now, failed);
      o.response.Ok? && o.response.value.contentType == DefaultContentType
  {
  }

  /** An explicit `null` type is falsy, so the edited row keeps its type. */
  lemma NullTypeKeepsType(s: Store, id: Id, content: string, now: Time, failed: set<Conn>)
    requires Find(s.items, id).Some?
    ensures ParseUpdate(Given(content), Null).Ok?
    ensures var o := UpdateItem(s, id, ParseUpdate(Given(content), Null).value, now, failed);
      o.response.Ok? && o.response.value.contentType == Find(s.items, id).value.contentType
  {
  }

  /** A client that synced at `cursor` sees an edit made after it on its next sync,
      and the edited row appears with its new content. */
  lemma EditVisibleToSync(s: Store, id: Id, req: UpdateRequest, now: Time, cursor: Time, failed: set<Conn>)
    requires cursor < now
    requires Find(s.items, id).Some?
    ensures var o := UpdateItem(s, id, req, now, failed);
      && o.response.Ok?
      && o.response.value in Changed(o.store.items, Some(cursor))
      && o.response.value.content == req.content
  {
    var o := UpdateItem(s, id, req, now, failed);
    assert Find(o.store.items, id) == Some(o.response.value);
  }

  /** What delta-sync returns depends on the set of rows, not on the order they sit in. */
  lemma SyncIgnoresRowOrder(a: seq<Item>, b: seq<Item>, cursor: Option<Time>)
    requires multiset(a) == multiset(b)
    ensures multiset(Changed(a, cursor)) == multiset(Changed(b, cursor))
  {
    assert forall x :: multiset(Changed(a, cursor))[x] == multiset(Changed(b, cursor))[x];
  }

  /** A later cursor never returns a row an earlier cursor would not. */
  lemma LaterCursorSeesLess(items: seq<Item>, earlier: Time, later: Time)
    requires earlier <= later
    ensures multiset(Changed(items, Some(later))) <= multiset(Changed(items, Some(earlier)))
  {
    assert forall x :: multiset(Changed(items, Some(later)))[x] <= multiset(Changed(items, Some(earlier)))[x];
  }

  /** After a delete the id is gone: a lookup and a second delete both answer 404,
      and the second delete broadcasts nothing. */
  lemma DeleteIsFinal(s: Store, id: Id, failed: set<Conn>, failed2: set<Conn>)
    requires DeleteItem(s, id, failed).response.Ok?
    ensures var t := DeleteItem(s, id, failed).store;
      && GetItem(t, id) == Err(NotFound)
      && DeleteItem(t, id, failed2) == Outcome(t, Err(NotFound))
      && |t.log| == |s.log| + 1
  {
  }

  /** After an update a lookup of the id returns the edited row. */
  lemma UpdateThenGet(s: Store, id: Id, req: UpdateRequest, now: Time, failed: set<Conn>)
    requires UpdateItem(s, id, req, now, failed).response.Ok?
    ensures GetItem(UpdateItem(s, id, req, now, failed).store, id) == UpdateItem(s, id, req, now, failed).response
  {
  }

  /** An entry at least as new as a strictly newest last entry is that last entry. */
  lemma OnlyLastIsNewest(h: seq<HistoryEntry>, e: HistoryEntry)
    requires |h| > 0 && e in h
    requires forall i :: 0 <= i < |h| - 1 ==> h[i].timestamp < h[|h| - 1].timestamp
    ensures e.timestamp >= h[|h| - 1].timestamp ==> e == h[|h| - 1]
  {
    var i :| 0 <= i < |h| && h[i] == e;
  }

  /** When the last history entry is strictly newer than every earlier one, a limit of
      one lists exactly that entry for its item. */
  lemma NewestEntryFirst(s: Store)
    requires |s.history| > 0
    requires forall i :: 0 <= i < |s.history| - 1 ==> s.history[i].timestamp < s.history[|s.history| - 1].timestamp
    ensures var entry := s.history[|s.history| - 1];
      HistoryEntries(s, entry.itemId, 1) == [entry]
  {
    var entry := s.history[|s.history| - 1];
    var mine := ItemEntries(s.history, entry.itemId);
    var r := HistoryEntries(s, entry.itemId, 1);
    assert entry in mine;
    assert |r| == 1;
    assert r[0] in s.history && r[0].itemId == entry.itemId;
    if r[0] != entry {
      assert entry !in r;
      OnlyLastIsNewest(s.history, r[0]);
    }
    assert r == [entry];
  }

  /** The edit's history entry is the one the history endpoint lists first for the item,
      given a clock that has moved on since earlier entries were written. */
  lemma EditRecordedInHistory(s: Store, id: Id, req: UpdateRequest, now: Time, failed: set<Conn>)
    requires forall i :: 0 <= i < |s.history| ==> s.history[i].timestamp < now
    requires Find(s.items, id).Some?
    ensures var t := UpdateItem(s, id, req, now, failed).store;
      && |t.history| == |s.history| + 1
      && HistoryEntries(t, id, 1) == [t.history[|s.history|]]
      && t.history[|s.history|] == HistoryEntry(t.history[|s.history|].id, id, req.content, now)
  {
    var t := UpdateItem(s, id, req, now, failed).store;
    forall i | 0 <= i < |t.history| - 1
      ensures t.history[i].timestamp < t.history[|t.history| - 1].timestamp
    {
      assert t.history[i] == t.history[..|s.history|][i];
    }
    NewestEntryFirst(t);
  }

  /** A create that inserts adds one to the total and, being created now, one to the
      trailing-day count. */
  lemma InsertCounted(s: Store, req: CreateRequest, now: Time, freshId: Id, failed: set<Conn>)
    requires Latest(s.items, req.content).None? && Find(s.items, freshId).None?
    ensures var t := CreateItem(s, req, now, freshId, failed).store;
      && GetStats(t, now).totalItems == GetStats(s, now).totalItems + 1
      && GetStats(t, now).recentItems24h == GetStats(s, now).recentItems24h + 1
  {
    var o := CreateItem(s, req, now, freshId, failed);
    assert o.store.items == s.items + [o.response.value];
    FilterAppend(s.items, o.response.value, (x: Item) => CreatedWithinDay(x, now));
  }

  /** A successful delete takes one from the total. */
  lemma DeleteCounted(s: Store, id: Id, now: Time, failed: set<Conn>)
    requires Valid(s)
    requires DeleteItem(s, id, failed).response.Ok?
    ensures GetStats(DeleteItem(s, id, failed).store, now).totalItems == GetStats(s, now).totalItems - 1
  {
  }
}

=== FILE: models.dfy ===
/** The two persisted records, `ClipboardItem` and `ClipboardHistory`, their
    column defaults, and the dictionary an item is serialised to. */
module Models {
  import opened Basics

  /** Item ids are opaque strings (a UUID4 in the service). */
  type Id = string

  /** A row of `clipboard_items`. `content` and `content_type` are never NULL;
      `ip_address` is a column no handler writes. */
  datatype Item = Item(
    id: Id,
    content: string,
    contentType: string,
    deviceName: Option<string>,
    ipAddress: Option<string>,
    createdAt: Time,
    updatedAt: Time)

  /** Column default of `content_type`. */
  const DefaultContentType: string := "text"

  /** The row an insert produces: no `ip_address`, and both timestamps set to `now`. The
      two column defaults read the clock separately; the model takes one reading per request. */
  function NewItem(id: Id, content: string, contentType: string, deviceName: Option<string>, now: Time): Item {
    Item(id, content, contentType, deviceName, None, now, now)
  }

  /** A row of `clipboard_history`: the content an item was edited to, and when. */
  datatype HistoryEntry = HistoryEntry(id: nat, itemId: Id, content: string, timestamp: Time)

  /** The JSON values `to_dict` produces; a timestamp stands for its ISO-8601 text. */
  datatype Json = JNull | JString(str: string) | JTime(time: Time)

  /** A JSON object as its key/value pairs in emission order. */
  type Dict = seq<(string, Json)>

  /** The keys of `ClipboardItem.to_dict`, in order. */
  const ItemFields: seq<string> :=
    ["id", "content", "content_type", "device_name", "ip_address", "created_at", "updated_at"]

  function OptionalString(o: Option<string>): Json {
    match o
    case None => JNull
    case Some(s) => JString(s)
  }

  /** `ClipboardItem.to_dict`: exactly the seven columns, NULL columns as `null`,
      and nothing lost on the way (`FromDict` recovers the item). */
  function ToDict(item: Item): (d: Dict)
    ensures |d| == |ItemFields|
    ensures forall i :: 0 <= i < |d| ==> d[i].0 == ItemFields[i]
    ensures d[3].1 == JNull <==> item.deviceName.None?
    ensures d[4].1 == JNull <==> item.ipAddress.None?
    ensures FromDict(d) == Some(item)
  {
    var d := [ ("id", JString(item.id)),
               ("content", JString(item.content)),
               ("content_type", JString(item.contentType)),
               ("device_name", OptionalString(item.deviceName)),
               ("ip_address", OptionalString(item.ipAddress)),
               ("created_at", JTime(item.createdAt)),
               ("updated_at", JTime(item.updatedAt)) ];
    LookupFields(d);
    d
  }

  /** Each key of a seven-field item dictionary finds its own position. */
  lemma LookupFields(d: Dict)
    requires |d| == |ItemFields|
    requires forall i :: 0 <= i < |d| ==> d[i].0 == ItemFields[i]
    ensures Lookup(d, "id") == Some(d[0].1)
    ensures Lookup(d, "content") == Some(d[1].1)
    ensures Lookup(d, "content_type") == Some(d[2].1)
    ensures Lookup(d, "device_name") == Some(d[3].1)
    ensures Lookup(d, "ip_address") == Some(d[4].1)
    ensures Lookup(d, "created_at") == Some(d[5].1)
    ensures Lookup(d, "updated_at") == Some(d[6].1)
  {
    assert |ItemFields[0]| == 2 && |ItemFields[1]| == 7 && |ItemFields[2]| == 12 && |ItemFields[3]| == 11;
    assert |ItemFields[4]| == 10 && |ItemFields[5]| == 10 && |ItemFields[6]| == 10;
    assert ItemFields[4][0] != ItemFields[5][0] && ItemFields[4][0] != ItemFields[6][0];
    assert ItemFields[5][0] != ItemFields[6][0];
    forall i | 0 <= i < |d|
      ensures Lookup(d, ItemFields[i]) == Some(d[i].1)
    {
      LookupAt(d, i);
    }
  }

  /** A key found at position `i` and at no earlier position looks up `d[i]`. */
  lemma {:induction false} LookupAt(d: Dict, i: int)
    requires 0 <= i < |d|
    requires forall j :: 0 <= j < i ==> d[j].0 != d[i].0
    ensures Lookup(d, d[i].0) == Some(d[i].1)
  {
    if i > 0 {
      LookupAt(d[1..], i - 1);
    }
  }

  /** The value of the first pair with key `k`. */
  function Lookup(d: Dict, k: string): Option<Json> {
    if |d| == 0 then None
    else if d[0].0 == k then Some(d[0].1)
    else Lookup(d[1..], k)
  }

  function AsString(j: Option<Json>): Option<string> {
    match j
    case Some(JString(s)) => Some(s)
    case _ => None
  }

  function AsTime(j: Option<Json>): Option<Time> {
    match j
    case Some(JTime(t)) => Some(t)
    case _ => None
  }

  /** A nullable string field: `Some(None)` for `null`, `None` when malformed or missing. */
  function AsOptionalString(j: Option<Json>): Option<Option<string>> {
    match j
    case Some(JNull) => Some(None)
    case Some(JString(s)) => Some(Some(s))
    case _ => None
  }

  /** How a client reads an item dictionary back: every key must be present with the right shape. */
  function FromDict(d: Dict): Option<Item> {
    var id := AsString(Lookup(d, "id"));
    var content := AsString(Lookup(d, "content"));
    var contentType := AsString(Lookup(d, "content_type"));
    var device := AsOptionalString(Lookup(d, "device_name"));
    var ip := AsOptionalString(Lookup(d, "ip_address"));
    var created := AsTime(Lookup(d, "created_at"));
    var updated := AsTime(Lookup(d, "updated_at"));
    if id.Some? && content.Some? && contentType.Some? && device.Some? && ip.Some? && created.Some? && updated.Some?
    then Some(Item(id.value, content.value, contentType.value, device.value, ip.value, created.value, updated.value))
    else None
  }

  /** What the history endpoint emits per entry: its id, content and timestamp. */
  datatype HistoryView = HistoryView(id: nat, content: string, timestamp: Time)

  function ViewOf(e: HistoryEntry): HistoryView {
    HistoryView(e.id, e.content, e.timestamp)
  }
}

=== FILE: query.dfy ===
/** The shape of the service's SELECT statements over a table held as a
    sequence of rows: `WHERE` (filtering), `ORDER BY key DESC` and SQLite's
    `LIMIT`. Ties are broken arbitrarily, as SQL leaves them unspecified, so
    only sortedness, permutation and length are promised. */
module Query {

  /** `WHERE p`: the rows satisfying `p`, in table order. */
  function Filter<T(==,!new)>(s: seq<T>, p: T -> bool): (r: seq<T>)
    ensures |r| <= |s|
    ensures forall x :: multiset(r)[x] == if p(x) then multiset(s)[x] else 0
    ensures (forall i :: 0 <= i < |s| ==> p(s[i])) ==> r == s
  {
    if |s| == 0 then []
    else
      var rest := Filter(s[1..], p);
      assert s == [s[0]] + s[1..];
      assert multiset(s) == multiset{s[0]} + multiset(s[1..]);
      (if p(s[0]) then [s[0]] else []) + rest
  }

  /** The membership reading of `Filter`. */
  lemma FilterMembers<T(!new)>(s: seq<T>, p: T -> bool)
    ensures forall x :: x in Filter(s, p) <==> x in s && p(x)
  {
    var r := Filter(s, p);
    forall x
      ensures x in r <==> x in s && p(x)
    {
      assert x in r <==> multiset(r)[x] > 0;
      assert x in s <==> multiset(s)[x] > 0;
    }
  }

  /** Filtering a table with one more row at the end keeps one more row exactly when it qualifies. */
  lemma {:induction false} FilterAppend<T(!new)>(s: seq<T>, x: T, p: T -> bool)
    ensures |Filter(s + [x], p)| == |Filter(s, p)| + (if p(x) then 1 else 0)
  {
    if |s| > 0 {
      assert (s + [x])[1..] == s[1..] + [x];
      FilterAppend(s[1..], x, p);
    }
  }

  /** No element has a smaller key than one that comes after it. */
  predicate SortedDesc<T>(s: seq<T>, key: T -> int) {
    forall i, j :: 0 <= i < j < |s| ==> key(s[i]) >= key(s[j])
  }

  /** No value occurs twice. */
  predicate Distinct<T(==)>(s: seq<T>) {
    forall i, j :: 0 <= i < j < |s| ==> s[i] != s[j]
  }

  /** Puts `x` into the descending sequence `s`, ahead of the first element whose key it reaches. */
  function Insert<T(==)>(x: T, s: seq<T>, key: T -> int): (r: seq<T>)
    requires SortedDesc(s, key)
    ensures |r| == |s| + 1
    ensures SortedDesc(r, key)
    ensures multiset(r) == multiset(s) + multiset{x}
    ensures r[0] == x || (|s| > 0 && r[0] == s[0])
  {
    if |s| == 0 then [x]
    else if key(x) >= key(s[0]) then [x] + s
    else
      var t := Insert(x, s[1..], key);
      assert s == [s[0]] + s[1..];
      assert key(t[0]) <= key(s[0]);
      [s[0]] + t
  }

  /** `ORDER BY key DESC` over the rows `s`. */
  function SortDesc<T(==)>(s: seq<T>, key: T -> int): (r: seq<T>)
    ensures SortedDesc(r, key)
    ensures multiset(r) == multiset(s)
  {
    if |s| == 0 then []
    else
      assert s == [s[0]] + s[1..];
      Insert(s[0], SortDesc(s[1..], key), key)
  }

  /** SQLite's `LIMIT n`: the first `n` rows; a negative `n` imposes no bound. */
  function Limit<T>(s: seq<T>, n: int): (r: seq<T>)
    ensures |r| == if 0 <= n < |s| then n else |s|
    ensures r == s[..|r|]
  {
    if 0 <= n < |s| then s[..n] else s
  }

  /** A prefix of a descending sequence is descending. */
  lemma LimitSorted<T>(s: seq<T>, key: T -> int, n: int)
    requires SortedDesc(s, key)
    ensures SortedDesc(Limit(s, n), key)
  {
  }

  /** What `LIMIT` cuts off from a descending sequence ranks no higher than what it keeps. */
  lemma LimitKeepsTop<T>(s: seq<T>, key: T -> int, n: int, x: T)
    requires SortedDesc(s, key)
    requires x in s && x !in Limit(s, n)
    ensures forall y :: y in Limit(s, n) ==> key(y) >= key(x)
  {
    var r := Limit(s, n);
    var k :| 0 <= k < |s| && s[k] == x;
    forall y | y in r
      ensures key(y) >= key(x)
    {
      var i :| 0 <= i < |r| && r[i] == y;
      assert s[i] == y;
    }
  }

  /** `ORDER BY key DESC LIMIT n`: the rows of `q` with the largest keys, largest first. */
  function TopN<T(==)>(q: seq<T>, key: T -> int, n: int): (r: seq<T>)
    ensures |r| == if 0 <= n < |q| then n else |q|
    ensures SortedDesc(r, key)
    ensures multiset(r) <= multiset(q)
    ensures n < 0 ==> multiset(r) == multiset(q)
    ensures forall x :: x in q && x !in r ==> forall y :: y in r ==> key(y) >= key(x)
  {
    var sorted := SortDesc(q, key);
    var r := Limit(sorted, n);
    LimitSorted(sorted, key, n);
    assert sorted == r + sorted[|r|..];
    assert multiset(sorted) == multiset(r) + multiset(sorted[|r|..]);
    forall x | x in q && x !in r
      ensures forall y :: y in r ==> key(y) >= key(x)
    {
      assert x in multiset(sorted);
      LimitKeepsTop(sorted, key, n, x);
    }
    r
  }

  /** The membership reading of `TopN`. */
  lemma TopNMembers<T(!new)>(q: seq<T>, key: T -> int, n: int)
    ensures forall x :: x in TopN(q, key, n) ==> x in q
    ensures n < 0 ==> forall x :: x in q ==> x in TopN(q, key, n)
  {
    var r := TopN(q, key, n);
    forall x | x in r
      ensures x in q
    {
      assert x in multiset(r);
    }
    if n < 0 {
      forall x | x in q
        ensures x in r
      {
        assert x in multiset(q);
      }
    }
  }

  /** A value occurring at two positions occurs at least twice in the multiset. */
  lemma {:induction false} RepeatCounted<T>(s: seq<T>, i: int, j: int)
    requires 0 <= i < j < |s| && s[i] == s[j]
    ensures multiset(s)[s[i]] >= 2
  {
    assert s == s[..j] + s[j..];
    assert s[i] in s[..j];
    assert s[j] in s[j..];
    assert multiset(s) == multiset(s[..j]) + multiset(s[j..]);
  }

  /** In a sequence without repeats each value is counted at most once. */
  lemma {:induction false} DistinctCountsOnce<T>(s: seq<T>, x: T)
    requires Distinct(s)
    ensures multiset(s)[x] <= 1
  {
    if |s| > 0 {
      assert s == [s[0]] + s[1..];
      assert Distinct(s[1..]);
      DistinctCountsOnce(s[1..], x);
      if x == s[0] {
        assert x !in s[1..];
      }
    }
  }

  /** Reordering a sequence without repeats yields a sequence without repeats. */
  lemma PermutationDistinct<T>(a: seq<T>, b: seq<T>)
    requires multiset(a) == multiset(b)
    requires Distinct(a)
    ensures Distinct(b)
  {
    forall i, j | 0 <= i < j < |b|
      ensures b[i] != b[j]
    {
      if b[i] == b[j] {
        RepeatCounted(b, i, j);
        DistinctCountsOnce(a, b[i]);
        assert false;
      }
    }
  }
}

=== FILE: schemas.dfy ===
/** The request bodies the handlers accept, with the defaults the schema fills
    in for fields the client leaves out. */
module Schemas {
  import opened Basics
  import opened Models

  /** One field of an incoming JSON body: left out, sent as `null`, or sent with a value. */
  datatype Raw<+T> = Absent | Null | Given(value: T)

  /** `ClipboardItemCreate`. */
  datatype CreateRequest = CreateRequest(content: string, contentType: string, deviceName: Option<string>)

  /** `ClipboardItemUpdate`: `content_type` may be `null`, and is `"text"` when left out. */
  datatype UpdateRequest = UpdateRequest(content: string, contentType: Option<string>)

  /** `ClipboardSyncRequest`: without a cursor the whole table is returned. */
  datatype SyncRequest = SyncRequest(lastSync: Option<Time>)

  /** A field typed `Optional[...] = None`: left out and `null` both read as `None`. */
  function Nullable<T>(f: Raw<T>): Option<T> {
    match f
    case Given(v) => Some(v)
    case _ => None
  }

  /** Validates a create body: `content` is required and not nullable, `content_type` is a
      non-nullable string defaulting to `"text"`, `device_name` is nullable and defaults to `None`. */
  function ParseCreate(content: Raw<string>, contentType: Raw<string>, deviceName: Raw<string>): (r: Result<CreateRequest>)
    ensures r.Ok? <==> content.Given? && !contentType.Null?
    ensures r.Err? ==> r.error == ValidationError
    ensures r.Ok? ==> r.value.content == content.value
    ensures r.Ok? && contentType.Absent? ==> r.value.contentType == DefaultContentType
    ensures r.Ok? && contentType.Given? ==> r.value.contentType == contentType.value
    ensures r.Ok? ==> (r.value.deviceName.None? <==> !deviceName.Given?)
    ensures r.Ok? && deviceName.Given? ==> r.value.deviceName == Some(deviceName.value)
  {
    if !content.Given? || contentType.Null? then Err(ValidationError)
    else
      var ct := if contentType.Given? then contentType.value else DefaultContentType;
      Ok(CreateRequest(content.value, ct, Nullable(deviceName)))
  }

  /** Validates an update body: `content` is required, `content_type` is nullable and
      defaults to `"text"` (not to `None`) when left out. */
  function ParseUpdate(content: Raw<string>, contentType: Raw<string>): (r: Result<UpdateRequest>)
    ensures r.Ok? <==> content.Given?
    ensures r.Err? ==> r.error == ValidationError
    ensures r.Ok? ==> r.value.content == content.value
    ensures r.Ok? ==> (r.value.contentType.None? <==> contentType.Null?)
    ensures r.Ok? && contentType.Absent? ==> r.value.contentType == Some(DefaultContentType)
    ensures r.Ok? && contentType.Given? ==> r.value.contentType == Some(contentType.value)
  {
    if !content.Given? then Err(ValidationError)
    else
      var ct := match contentType
        case Absent => Some(DefaultContentType)
        case Null => None
        case Given(v) => Some(v);
      Ok(UpdateRequest(content.value, ct))
  }

  /** Validates a sync body: `last_sync` is optional and defaults to `None`. */
  function ParseSync(lastSync: Raw<Time>): (r: SyncRequest)
    ensures r.lastSync.Some? <==> lastSync.Given?
    ensures lastSync.Given? ==> r.lastSync.value == lastSync.value
  {
    SyncRequest(Nullable(lastSync))
  }

  /** A body a client could send for the request: every field spelled out. */
  function EncodeCreate(req: CreateRequest): (Raw<string>, Raw<string>, Raw<string>) {
    (Given(req.content), Given(req.contentType),
     match req.deviceName case None => Null case Some(d) => Given(d))
  }

  function EncodeUpdate(req: UpdateRequest): (Raw<string>, Raw<string>) {
    (Given(req.content), match req.contentType case None => Null case Some(t) => Given(t))
  }

  /** Every create request survives being sent and validated unchanged. */
  lemma CreateRoundTrip(req: CreateRequest)
    ensures var (c, t, d) := EncodeCreate(req); ParseCreate(c, t, d) == Ok(req)
  {
  }

  /** Every update request survives being sent and validated unchanged. */
  lemma UpdateRoundTrip(req: UpdateRequest)
    ensures var (c, t) := EncodeUpdate(req); ParseUpdate(c, t) == Ok(req)
  {
  }
}

=== FILE: stats.dfy ===
/** `get_clipboard_stats`: the row count, the rows created in the trailing day,
    the five busiest devices and the number of live push channels. */
module Stats {
  import opened Basics
  import opened Models
  import opened Query
  import opened Clipboard

  /** One `GROUP BY device_name` group; rows without a device form the `None` group. */
  datatype DeviceCount = DeviceCount(device: Option<string>, count: nat)

  datatype StatsResponse = StatsResponse(
    totalItems: nat,
    recentItems24h: nat,
    topDevices: seq<DeviceCount>,
    activeConnections: nat)

  /** How many groups `get_clipboard_stats` reports at most. */
  const TopDeviceLimit: int := 5

  /** `created_at >= now - 1 day`. */
  predicate CreatedWithinDay(x: Item, now: Time) {
    x.createdAt >= now - Day
  }

  /** `SELECT count() ... WHERE created_at >= now - 1 day`. */
  function RecentCount(items: seq<Item>, now: Time): nat {
    |Filter(items, (x: Item) => CreatedWithinDay(x, now))|
  }

  /** The size of the group of device `d`. */
  function DeviceRows(items: seq<Item>, d: Option<string>): nat {
    if |items| == 0 then 0
    else (if items[0].deviceName == d then 1 else 0) + DeviceRows(items[1..], d)
  }

  /** A device that appears on some row has a group of at least one row. */
  lemma {:induction false} DeviceRowsPositive(items: seq<Item>, i: int)
    requires 0 <= i < |items|
    ensures DeviceRows(items, items[i].deviceName) >= 1
  {
    if i > 0 && items[0].deviceName != items[i].deviceName {
      DeviceRowsPositive(items[1..], i - 1);
    }
  }

  /** The distinct `device_name` values, one per group. */
  function Devices(items: seq<Item>): (r: seq<Option<string>>)
    ensures Distinct(r)
    ensures forall d :: d in r <==> exists i :: 0 <= i < |items| && items[i].deviceName == d
  {
    if |items| == 0 then []
    else
      var rest := Devices(items[1..]);
      assert forall i :: 1 <= i < |items| ==> items[i] == items[1..][i - 1];
      if items[0].deviceName in rest then rest else [items[0].deviceName] + rest
  }

  /** The count of a group, the sort key of the device ranking. */
  function CountOf(g: DeviceCount): int {
    g.count
  }

  /** Every group with its size. */
  function Groups(items: seq<Item>): (r: seq<DeviceCount>)
    ensures |r| == |Devices(items)|
    ensures forall i :: 0 <= i < |r| ==> r[i] == DeviceCount(Devices(items)[i], DeviceRows(items, Devices(items)[i]))
  {
    var ds := Devices(items);
    seq(|ds|, i requires 0 <= i < |ds| => DeviceCount(ds[i], DeviceRows(items, ds[i])))
  }

  /** One group per device. */
  lemma GroupsDistinct(items: seq<Item>)
    ensures Distinct(Groups(items))
  {
    var ds := Devices(items);
    var r := Groups(items);
    forall i, j | 0 <= i < j < |r|
      ensures r[i] != r[j]
    {
      assert r[i].device == ds[i] && r[j].device == ds[j];
    }
  }

  /** Each group is sized by its own rows and names a device some row has. */
  lemma GroupsSized(items: seq<Item>)
    ensures forall g :: g in Groups(items) ==> g.count == DeviceRows(items, g.device) && g.device in Devices(items)
  {
  }

  /** Every row's device has its group. */
  lemma GroupsCover(items: seq<Item>, i: int)
    requires 0 <= i < |items|
    ensures DeviceCount(items[i].deviceName, DeviceRows(items, items[i].deviceName)) in Groups(items)
  {
    var ds := Devices(items);
    var r := Groups(items);
    assert items[i].deviceName in ds;
    var k :| 0 <= k < |ds| && ds[k] == items[i].deviceName;
    assert r[k] == DeviceCount(items[i].deviceName, DeviceRows(items, items[i].deviceName));
  }

  /** The ranking before it is named: the groups by descending size, cut at five. */
  function Ranked(items: seq<Item>): seq<DeviceCount> {
    TopN(Groups(items), CountOf, TopDeviceLimit)
  }

  /** Each ranked group carries the true size of a device that occurs. */
  lemma RankedSized(items: seq<Item>)
    ensures forall i :: 0 <= i < |Ranked(items)| ==>
      Ranked(items)[i].count == DeviceRows(items, Ranked(items)[i].device) && Ranked(items)[i].count >= 1
  {
    var r := Ranked(items);
    TopNMembers(Groups(items), CountOf, TopDeviceLimit);
    GroupsSized(items);
    forall i | 0 <= i < |r|
      ensures r[i].count == DeviceRows(items, r[i].device) && r[i].count >= 1
    {
      assert r[i] in Groups(items);
      assert r[i].device in Devices(items);
      var k :| 0 <= k < |items| && items[k].deviceName == r[i].device;
      DeviceRowsPositive(items, k);
    }
  }

  /** No device is ranked twice. */
  lemma RankedDistinct(items: seq<Item>)
    ensures forall i, j :: 0 <= i < j < |Ranked(items)| ==> Ranked(items)[i].device != Ranked(items)[j].device
  {
    var groups := Groups(items);
    var sorted := SortDesc(groups, CountOf);
    var r := Ranked(items);
    GroupsDistinct(items);
    PermutationDistinct(groups, sorted);
    assert r == sorted[..|r|];
    RankedSized(items);
  }

  /** A device left out of the ranking has no more rows than any ranked one. */
  lemma RankedTop(items: seq<Item>, x: Item)
    requires x in items
    requires forall i :: 0 <= i < |Ranked(items)| ==> Ranked(items)[i].device != x.deviceName
    ensures forall i :: 0 <= i < |Ranked(items)| ==> Ranked(items)[i].count >= DeviceRows(items, x.deviceName)
  {
    var r := Ranked(items);
    var k :| 0 <= k < |items| && items[k] == x;
    var g := DeviceCount(x.deviceName, DeviceRows(items, x.deviceName));
    GroupsCover(items, k);
    assert g !in r;
  }

  /** `GROUP BY device_name ORDER BY count DESC LIMIT 5`: at most five groups, each with
      its true size, no device twice, largest first, and no group left out is larger
      than one reported. */
  function TopDevices(items: seq<Item>): (r: seq<DeviceCount>)
    ensures |r| == if |Devices(items)| < TopDeviceLimit then |Devices(items)| else TopDeviceLimit
    ensures forall i :: 0 <= i < |r| ==> r[i].count == DeviceRows(items, r[i].device) && r[i].count >= 1
    ensures forall i, j :: 0 <= i < j < |r| ==> r[i].device != r[j].device
    ensures SortedDesc(r, CountOf)
    ensures forall x :: x in items && (forall i :: 0 <= i < |r| ==> r[i].device != x.deviceName) ==>
      forall i :: 0 <= i < |r| ==> r[i].count >= DeviceRows(items, x.deviceName)
  {
    RankedSized(items);
    RankedDistinct(items);
    forall x | x in items && (forall i :: 0 <= i < |Ranked(items)| ==> Ranked(items)[i].device != x.deviceName)
      ensures forall i :: 0 <= i < |Ranked(items)| ==> Ranked(items)[i].count >= DeviceRows(items, x.deviceName)
    {
      RankedTop(items, x);
    }
    Ranked(items)
  }

  /** `get_clipboard_stats` on the store at time `now`. */
  function GetStats(s: Store, now: Time): (r: StatsResponse)
    ensures r.totalItems == |s.items|
    ensures r.recentItems24h <= r.totalItems
    ensures r.recentItems24h == RecentCount(s.items, now)
    ensures r.topDevices == TopDevices(s.items)
    ensures r.activeConnections == |s.connections|
  {
    StatsResponse(|s.items|, RecentCount(s.items, now), TopDevices(s.items), |s.connections|)
  }
}

=== FILE: table.dfy ===
/** The `clipboard_items` table as a sequence of rows, and the statements the
    handlers run against it: lookup by id, in-place update, delete by id and
    lookup by content. */
module Table {
  import opened Basics
  import opened Models
  import opened Query

  /** `id` is the primary key: no two rows share it. */
  predicate UniqueIds(items: seq<Item>) {
    forall i, j :: 0 <= i < j < |items| ==> items[i].id != items[j].id
  }

  /** No two rows share their content: the dedup engine's view of the table. */
  predicate ContentUnique(items: seq<Item>) {
    forall i, j :: 0 <= i < j < |items| ==> items[i].content != items[j].content
  }

  /** `SELECT ... WHERE id = ?`: the row with that id, if there is one. */
  function Find(items: seq<Item>, id: Id): (r: Option<Item>)
    ensures r.Some? ==> r.value in items && r.value.id == id
    ensures r.None? <==> forall i :: 0 <= i < |items| ==> items[i].id != id
  {
    if |items| == 0 then None
    else if items[0].id == id then Some(items[0])
    else Find(items[1..], id)
  }

  /** Under the primary key, a row is what a lookup of its own id returns. */
  lemma {:induction false} FindRow(items: seq<Item>, i: int)
    requires UniqueIds(items)
    requires 0 <= i < |items|
    ensures Find(items, items[i].id) == Some(items[i])
  {
    if i > 0 {
      assert UniqueIds(items[1..]);
      FindRow(items[1..], i - 1);
    }
  }

  /** Two tables agree on every id other than `id`. */
  ghost predicate SameExcept(before: seq<Item>, after: seq<Item>, id: Id) {
    forall j :: j != id ==> Find(after, j) == Find(before, j)
  }

  /** Writing `x` over the row(s) with id `id`: the ORM's UPDATE by primary key. */
  function Replace(items: seq<Item>, id: Id, x: Item): (r: seq<Item>)
    ensures |r| == |items|
    ensures forall i :: 0 <= i < |r| ==> r[i] == if items[i].id == id then x else items[i]
  {
    seq(|items|, i requires 0 <= i < |items| => if items[i].id == id then x else items[i])
  }

  /** A lookup after an UPDATE by primary key: the new row for `id` when one was there,
      and otherwise what the lookup found before. */
  lemma {:induction false} ReplaceFindAt(items: seq<Item>, id: Id, x: Item, j: Id)
    requires x.id == id
    ensures Find(Replace(items, id, x), j) == if j == id && Find(items, id).Some? then Some(x) else Find(items, j)
  {
    if |items| > 0 {
      assert Replace(items, id, x)[1..] == Replace(items[1..], id, x);
      ReplaceFindAt(items[1..], id, x, j);
    }
  }

  /** An UPDATE by primary key touches no other id, makes the new row what a lookup
      of `id` finds, and is a no-op when no row has that id. */
  lemma ReplaceFind(items: seq<Item>, id: Id, x: Item)
    requires x.id == id
    ensures SameExcept(items, Replace(items, id, x), id)
    ensures Find(items, id).Some? ==> Find(Replace(items, id, x), id) == Some(x)
    ensures Find(items, id).None? ==> Replace(items, id, x) == items
    ensures UniqueIds(items) ==> UniqueIds(Replace(items, id, x))
  {
    var r := Replace(items, id, x);
    forall j
      ensures Find(r, j) == if j == id && Find(items, id).Some? then Some(x) else Find(items, j)
    {
      ReplaceFindAt(items, id, x, j);
    }
    assert forall i :: 0 <= i < |r| ==> r[i].id == items[i].id;
  }

  /** `DELETE ... WHERE id = ?`: the rows that survive. */
  function DeleteWhere(items: seq<Item>, id: Id): (r: seq<Item>)
    ensures Find(r, id).None?
    ensures SameExcept(items, r, id)
    ensures |r| <= |items|
    ensures |r| == |items| <==> Find(items, id).None?
    ensures multiset(r) <= multiset(items)
  {
    if |items| == 0 then []
    else
      var rest := DeleteWhere(items[1..], id);
      assert items == [items[0]] + items[1..];
      if items[0].id == id then rest
      else
        var r := [items[0]] + rest;
        assert r[1..] == rest;
        r
  }

  /** Under the primary key, the surviving rows keep distinct ids. */
  lemma {:induction false} DeleteWhereKeepsUnique(items: seq<Item>, id: Id)
    requires UniqueIds(items)
    ensures UniqueIds(DeleteWhere(items, id))
  {
    if |items| > 0 {
      var tail := items[1..];
      assert UniqueIds(tail);
      DeleteWhereKeepsUnique(tail, id);
      var rest := DeleteWhere(tail, id);
      if items[0].id != id {
        assert DeleteWhere(items, id) == [items[0]] + rest;
        forall i | 0 <= i < |rest|
          ensures rest[i].id != items[0].id
        {
          assert rest[i] in multiset(tail);
          var k :| 0 <= k < |tail| && tail[k] == rest[i];
          assert tail[k] == items[k + 1];
        }
      }
    }
  }

  /** Under the primary key, a delete that finds its row removes exactly one row. */
  lemma {:induction false} DeleteWhereRemovesOne(items: seq<Item>, id: Id)
    requires UniqueIds(items)
    requires Find(items, id).Some?
    ensures |DeleteWhere(items, id)| == |items| - 1
  {
    var tail := items[1..];
    assert UniqueIds(tail);
    if items[0].id == id {
      assert DeleteWhere(items, id) == DeleteWhere(tail, id);
      forall i | 0 <= i < |tail|
        ensures tail[i].id != id
      {
        assert tail[i] == items[i + 1];
      }
    } else {
      DeleteWhereRemovesOne(tail, id);
    }
  }

  /** Under the primary key, a delete that finds its row removes exactly that row. */
  lemma DeleteWhereUnique(items: seq<Item>, id: Id)
    ensures UniqueIds(items) ==> UniqueIds(DeleteWhere(items, id))
    ensures UniqueIds(items) && Find(items, id).Some? ==> |DeleteWhere(items, id)| == |items| - 1
  {
    if UniqueIds(items) {
      DeleteWhereKeepsUnique(items, id);
      if Find(items, id).Some? {
        DeleteWhereRemovesOne(items, id);
      }
    }
  }

  /** A fresh row joins the end of the table; every other lookup is unaffected. */
  lemma {:induction false} FindAppend(items: seq<Item>, x: Item, j: Id)
    ensures Find(items + [x], j) == if Find(items, j).Some? then Find(items, j) else if x.id == j then Some(x) else None
  {
    if |items| > 0 {
      assert (items + [x])[1..] == items[1..] + [x];
      FindAppend(items[1..], x, j);
    }
  }

  /** `FindAppend` for every id at once. */
  lemma FindAppendEvery(items: seq<Item>, x: Item)
    ensures forall j :: Find(items + [x], j) == if Find(items, j).Some? then Find(items, j) else if x.id == j then Some(x) else None
  {
    forall j
      ensures Find(items + [x], j) == if Find(items, j).Some? then Find(items, j) else if x.id == j then Some(x) else None
    {
      FindAppend(items, x, j);
    }
  }

  /** `WHERE content = ?`: the rows holding exactly that content, in table order. */
  function Matches(items: seq<Item>, content: string): (r: seq<Item>)
    ensures forall x :: x in r <==> x in items && x.content == content
  {
    var holds := (x: Item) => x.content == content;
    FilterMembers(items, holds);
    Filter(items, holds)
  }

  /** The most recently updated row holding exactly `content`, the row the dedup lookup wants. */
  function Latest(items: seq<Item>, content: string): (r: Option<Item>)
    ensures r.None? <==> forall i :: 0 <= i < |items| ==> items[i].content != content
    ensures r.Some? ==> r.value in items && r.value.content == content
    ensures r.Some? ==> forall i :: 0 <= i < |items| && items[i].content == content ==> items[i].updatedAt <= r.value.updatedAt
  {
    if |items| == 0 then None
    else
      var rest := Latest(items[1..], content);
      assert forall i :: 1 <= i < |items| ==> items[i] == items[1..][i - 1];
      if items[0].content == content && (rest.None? || rest.value.updatedAt <= items[0].updatedAt)
      then Some(items[0])
      else rest
  }

  /** Every row holding the content is a match. */
  lemma MatchesCover(items: seq<Item>, content: string, i: int)
    requires 0 <= i < |items| && items[i].content == content
    ensures items[i] in Matches(items, content)
  {
  }

  /** When exactly one row value holds the content, the latest match is that value. */
  lemma LatestIsOnlyHolder(items: seq<Item>, content: string, m: seq<Item>)
    requires |m| == 1
    requires forall x :: x in m <==> x in items && x.content == content
    ensures Latest(items, content) == Some(m[0])
  {
    assert m[0] in m;
    var k :| 0 <= k < |items| && items[k] == m[0];
    var v := Latest(items, content).value;
    assert v in m;
  }

  /** With one match, the latest match is that match. */
  lemma LatestOfSingleMatch(items: seq<Item>, content: string)
    requires |Matches(items, content)| == 1
    ensures Latest(items, content) == Some(Matches(items, content)[0])
  {
    LatestIsOnlyHolder(items, content, Matches(items, content));
  }

  /** With at most one match, the latest match is that match. */
  lemma LatestOfFewMatches(items: seq<Item>, content: string)
    ensures |Matches(items, content)| == 0 ==> Latest(items, content).None?
    ensures |Matches(items, content)| == 1 ==> Latest(items, content) == Some(Matches(items, content)[0])
  {
    forall i | 0 <= i < |items| && items[i].content == content
      ensures items[i] in Matches(items, content)
    {
      MatchesCover(items, content, i);
    }
    if |Matches(items, content)| == 1 {
      LatestOfSingleMatch(items, content);
    }
  }

  /** `WHERE content = ?` peels off the first row. */
  lemma MatchesCons(items: seq<Item>, content: string)
    requires |items| > 0
    ensures Matches(items, content) == (if items[0].content == content then [items[0]] else []) + Matches(items[1..], content)
  {
  }

  /** Without repeated contents there is at most one match. */
  lemma {:induction false} UniqueContentMatch(items: seq<Item>, content: string)
    requires ContentUnique(items)
    ensures |Matches(items, content)| <= 1
  {
    if |items| > 0 {
      var tail := items[1..];
      assert ContentUnique(tail);
      UniqueContentMatch(tail, content);
      MatchesCons(items, content);
      if items[0].content == content {
        forall i | 0 <= i < |tail|
          ensures tail[i].content != content
        {
          assert tail[i] == items[i + 1];
        }
        assert Latest(tail, content).None?;
        LatestOfFewMatches(tail, content);
        assert |Matches(tail, content)| == 0;
      }
    }
  }

  /** The `updated_at` column, the sort key of every item query. */
  function UpdatedAt(x: Item): int {
    x.updatedAt
  }
}
